=== FILE: README.md ===
# WireGuard manager: per-interface reconciliation, in Dafny

This project models the host agent in `apps/wireguard_manager/manager.py`.
The agent keeps the WireGuard tunnels on one host in step with a remote
management service. It loads a JSON descriptor listing the interfaces. For
each interface it generates a key pair and uploads the public key. It then
renews every interface's bearer token and syncs every interface's peer
configuration: it fetches the peer block, normalises it, hashes it and
compares the hash with the stored one. The result decides whether the tunnel
file is written and whether the `wg-quick@<name>` service is enabled and
started, restarted, or left alone.

Every step is a pure function. It takes an immutable interface record and
the management API's reply, and it returns the new record. Shell commands,
timer registrations and file writes come out as a list of `Action`s. HTTP
calls come out as a list of `Request`s. The SHA-256 digest and the
`sample_config` template are function parameters. Only equality of digests
is ever observed.

Modules, one per concern:

- `wrappers.dfy` (`Wrappers`): `Option`, `Result`, and `Lookup` (Python's `dict.get`).
- `names.dfy` (`Names`): the tunnel file, service and key-file names, all derived from the interface name.
- `descriptor.dfy` (`Descriptor`): the parsed descriptor and the required-key check (`_is_config_valid`).
- `peer_config.dfy` (`PeerConfig`): the two rewrites applied to the peer block before hashing.
- `agent.dfy` (`Agent`): the interface record and the per-interface steps: key setup, renewal and sync.
- `manager.dfy` (`WireguardManager`): loading, the renewal and sync passes over all interfaces, and the bootstrap order.

Points where the code's behaviour is easy to mistake, as the model
follows it:

- The required top-level keys are `interfaces` and `manager_server_address`.
  `token_refresh_interval` and `config_update_interval` are not checked. A
  descriptor without them passes validation and then fails with an uncaught
  `KeyError` while the jobs are being registered. If only the update
  interval is missing, the renewal job has already been registered when the
  error occurs.
- A descriptor that is not valid JSON raises an uncaught `JSONDecodeError`,
  not a `StartupError`.
- Only `FileNotFoundError` is turned into a `StartupError`. Any other
  failure to open or decode the file (`PermissionError`,
  `IsADirectoryError`, `UnicodeDecodeError`) propagates uncaught; the model
  carries it as `ConfigFile.Unreadable` and `LoadError.Uncaught`.
- Key pairs are regenerated every time, with no check for an existing public
  key. A refused key upload aborts start-up instead of being logged and
  ignored.
- First activation depends on whether a hash is stored, not on whether the
  OS interface exists. The stored hash is not seeded from the tunnel file on
  disk. It comes only from a `config_hash` entry in the descriptor, which
  `interface.get("config_hash")` picks up.
- A renewal counts as successful when the response is truthy, that is, when
  its status is outside 400..599. A sync counts as successful only on status 200.

## Model

| member | source | states |
|---|---|---|
| Descriptor.FirstMissing | apps/wireguard_manager/manager.py:32-35 | Scanning a required-key list in order finds nothing exactly when every key is present; otherwise it finds an absent key with every earlier key present |
| Descriptor.FirstIncomplete | apps/wireguard_manager/manager.py:37-42 | The interface scan finds nothing exactly when every interface has all six keys; otherwise it finds the first interface that lacks one |
| Descriptor.InterfaceComplete | apps/wireguard_manager/manager.py:21 | Completeness is defined by the required-key list, and holds exactly when each of `name`, `overlay_id`, `device_id`, `virtual_address`, `listen_port` and `token` is present |
| Descriptor.FirstMissingIsFirst | apps/wireguard_manager/manager.py:32-35 | The key reported is the first absent one in list order, whichever that is |
| Descriptor.FirstIncompleteIsFirst | apps/wireguard_manager/manager.py:37-42 | The interface reported is the first incomplete one in list order |
| Descriptor.Validate | apps/wireguard_manager/manager.py:30-44 | Validation succeeds exactly when every top-level key and every key of every interface is present; a missing top-level key is reported as "<key> missing from the config file" |
| Descriptor.ValidateNamesFirstTopKey | apps/wireguard_manager/manager.py:20-35 | If a top-level key is absent, the reason names the first absent one of `interfaces` and `manager_server_address`, and no interface is examined |
| Descriptor.ValidateNamesFirstInterfaceKey | apps/wireguard_manager/manager.py:37-42 | If all top-level keys are present, the reason is "<key> missing from the interface config" for the first absent key of the first incomplete interface |
| Names.ConfigPathInjective | apps/wireguard_manager/manager.py:128 | Two interfaces share a tunnel file `/etc/wireguard/<name>.conf` only if they have the same name |
| Names.ServiceNameInjective | apps/wireguard_manager/manager.py:131-132 | Two interfaces share a `wg-quick@<name>` service only if they have the same name |
| Names.KeyPathsInjective | apps/wireguard_manager/manager.py:47-48 | Two interfaces share a private (or public) key file only if they have the same name |
| Names.KeyPathsDisjoint | apps/wireguard_manager/manager.py:47-48 | A private-key path is never a public-key path, whatever the names |
| PeerConfig.CollapseColonSpace | apps/wireguard_manager/manager.py:121 | Replacing ": " by ":" never lengthens the block |
| PeerConfig.CollapseColonSpaceEach | apps/wireguard_manager/manager.py:121 | Every occurrence of ": " is rewritten, wherever it stands: a block split around one occurrence rewrites as its two sides joined by ":" |
| PeerConfig.CollapseColonSpaceSplitAtColon | apps/wireguard_manager/manager.py:121 | No occurrence straddles a position where ":" starts, so the text before and from it rewrite independently |
| PeerConfig.DigitRun | apps/wireguard_manager/manager.py:122 | The greedy `\d+` consumes exactly the maximal run of digits |
| PeerConfig.CollapsePeerNumbers | apps/wireguard_manager/manager.py:122 | Replacing "Peer <digits>" by "Peer" never lengthens the block |
| PeerConfig.CollapsePeerNumbersEach | apps/wireguard_manager/manager.py:122 | Every `Peer \d+` match is rewritten, wherever it stands, and takes its whole digit run: a block split around one match rewrites as its two sides joined by "Peer" |
| PeerConfig.CollapsePeerNumbersSplitAtP | apps/wireguard_manager/manager.py:122 | No match straddles a position where "P" starts, so the text before and from it rewrite independently |
| PeerConfig.PeerMatchConsumesRun | apps/wireguard_manager/manager.py:122 | A block opening with "Peer " and a digit run continues right after the whole run |
| PeerConfig.DigitRunStops | apps/wireguard_manager/manager.py:122 | The digit run ends where the digits do, whatever non-digit text follows |
| PeerConfig.CollapseColonSpaceFixpoint | apps/wireguard_manager/manager.py:121 | The first rewrite leaves the block unchanged exactly when it contains no ": ", and otherwise makes it strictly shorter |
| PeerConfig.CollapseColonSpaceDropsOnlySpaces | apps/wireguard_manager/manager.py:121 | The first rewrite deletes spaces and nothing else; every other character survives in order |
| PeerConfig.CollapsePeerNumbersFixpoint | apps/wireguard_manager/manager.py:122 | The second rewrite leaves the block unchanged exactly when it contains no "Peer " followed by a digit, and otherwise makes it strictly shorter |
| PeerConfig.CollapsePeerNumbersDropsOnlySpacesAndDigits | apps/wireguard_manager/manager.py:122 | The second rewrite deletes only spaces and digits |
| PeerConfig.SiftPeerMatch | apps/wireguard_manager/manager.py:122 | One match of `Peer \d+` contributes exactly "Peer" once spaces and digits are disregarded |
| PeerConfig.NormaliseFixpoint | apps/wireguard_manager/manager.py:121-122 | Normalisation leaves a block unchanged exactly when it contains neither pattern; it never lengthens a block, and strictly shortens every block it changes |
| PeerConfig.NormaliseDropsOnlySpacesAndDigits | apps/wireguard_manager/manager.py:121-122 | Normalisation deletes only spaces and digits, so every other character of the fetched block reaches the hash in order |
| PeerConfig.NormaliseNotIdempotent | apps/wireguard_manager/manager.py:121-124 | Normalising twice differs from normalising once (":  " becomes ": " and then ":"), so the digest depends on the block being normalised exactly once, as it is |
| Agent.Provision | apps/wireguard_manager/manager.py:46-72 | Key setup always generates a key pair under paths named after the interface and uploads the public key with the interface's token; it yields a record exactly when the upload is accepted, and otherwise fails with "Could not update <name>'s public key" |
| Agent.ProvisionRecordsInterface | apps/wireguard_manager/manager.py:53-94 | An accepted setup records both key paths, derived from the name alone, the generated private key, the descriptor's identity, address, port and token, any expiry or hash the descriptor carries, and the static block rendered from the key, address and port |
| Agent.Renew | apps/wireguard_manager/manager.py:98-109 | An accepted renewal replaces the token and its expiry together from the one reply; a refused one leaves the record exactly as it was; nothing else in the record ever changes |
| Agent.Sync | apps/wireguard_manager/manager.py:111-142 | A non-200 fetch changes nothing. After a 200, the stored hash becomes the digest of the normalised block. With no stored hash the actions are write, enable, start; with a different one they are write, restart; with an equal one there are none. Nothing but the hash changes |
| Agent.SyncActsIffChanged | apps/wireguard_manager/manager.py:120-140 | A sync acts exactly when the fetch returned 200 and the new digest differs from the stored hash (or none is stored); every action targets the interface's own tunnel file and service |
| Agent.SyncIdempotent | apps/wireguard_manager/manager.py:124-140 | Repeating a sync with the same reply does nothing |
| Agent.RenewSyncCommute | apps/wireguard_manager/manager.py:98-140 | Renewal and sync touch disjoint fields: either order gives the same record and the same sync actions |
| Agent.SyncAfterRenewUsesNewToken | apps/wireguard_manager/manager.py:100-118 | The configuration fetch that follows a renewal carries the renewed token if the renewal was accepted, and the old token otherwise |
| WireguardManager.ProvisionAll | apps/wireguard_manager/manager.py:90-91 | Key setup attempts at most one interface per descriptor entry; on success it has attempted and produced all of them |
| WireguardManager.ProvisionAllSucceedsIffAllAccepted | apps/wireguard_manager/manager.py:90-94 | Setup of all interfaces succeeds exactly when every upload is accepted, and then yields each interface's provisioned record in descriptor order |
| WireguardManager.ProvisionAllNamesKeys | apps/wireguard_manager/manager.py:46-66 | The i-th key generation and upload belong to the i-th interface, under paths named after it |
| WireguardManager.ProvisionAllStopsAtFirstRefusal | apps/wireguard_manager/manager.py:68-91 | An aborted setup stops right after the first refused upload; every earlier upload was accepted, and the error names that interface |
| WireguardManager.Load | apps/wireguard_manager/manager.py:74-96 | A missing file gives StartupError("No config file found in this path: <path>"); any other open or decode failure, malformed JSON or a failed key check stops with no job registered and no key generated, the last as StartupError(fail_reason); a missing interval is an uncaught KeyError, after the renewal job when only the update interval is missing; otherwise the renewal and sync jobs are registered first, then key setup runs over the interfaces in order: its actions and requests follow the jobs, a refused upload ends loading with StartupError carrying setup's message, and on success the manager holds the server address and setup's records; loading succeeds exactly when the file is valid, both intervals are present and every upload is accepted |
| WireguardManager.RenewAll | apps/wireguard_manager/manager.py:98-109 | Each interface is renewed from its own reply alone, and each token request carries that interface's current token |
| WireguardManager.RenewAllIsRenewEach | apps/wireguard_manager/manager.py:98-109 | A renewal pass yields exactly the interfaces renewed one by one, each from its own reply |
| WireguardManager.SyncAll | apps/wireguard_manager/manager.py:111-142 | Each interface is synced from its own reply alone; the pass's actions are every interface's own sync actions, concatenated in descriptor order; the pass acts exactly when some interface's sync acts; every action belongs to one of the interfaces |
| WireguardManager.FirstPass | apps/wireguard_manager/manager.py:145-147 | After a successful load, every token is renewed before any interface is synced: each interface ends as sync applied to renew applied to its loaded record, each token request carries the loaded token, the second half of the requests are the configuration fetches built from the renewed records, each of which carries the token its renewal just obtained (the loaded one if renewal was refused), and the actions are each interface's sync-after-renew actions in descriptor order |
| WireguardManager.Bootstrap | apps/wireguard_manager/manager.py:144-147 | A failed load ends start-up with nothing renewed or synced and nothing further emitted; otherwise the load's actions and requests come first, followed by those of the renewal-then-sync pass |

## Left out

- Timer scheduling and the blocking loop (`Timeloop`, lines 15 and 148): only the registration of the two jobs is modelled, as `RegisterJob` actions. The model covers one renewal pass and one sync pass, not the schedule.
- The constructor's `mkdir /etc/wireguard_manager` (line 27) and the `umask` command (line 50) are not modelled; neither affects any later decision.
- Reading the generated key files and stripping them (lines 53-59) is not modelled: the stripped key contents are inputs (`KeyReply`).
- HTTP: the management API's replies are inputs. Connection errors are not modelled. Neither is a truthy token reply whose body is not JSON (`response.json()` raises), nor one whose JSON lacks `token` or `expiry_ts` (an uncaught `KeyError`). On a reply that has `token` but lacks `expiry_ts`, line 106 has already stored the new token when line 107 raises, so the code does not replace the pair atomically; `Agent.Renew` always replaces both or neither.
- Exit statuses of `os.system` are never inspected by the code, so there is nothing to model. File-write failures are not modelled.
- SHA-256 (line 124) is the `digest` parameter; only equality of digests matters.
- The `sample_config` template (lines 87-94) is the `template` parameter. A missing `sample_config` file (an uncaught `FileNotFoundError`) and placeholder errors in `str.format` are not modelled.
- JSON value types: every descriptor value is modelled as a string, so the model cannot tell a JSON number from a JSON string. The following are not modelled: an `interfaces` value that is not a list of objects (a `TypeError` or `AttributeError` in the code), a top-level JSON value that is not an object (an `AttributeError` at line 31), and a JSON `null` under `config_hash`.
- WireguardManager.Load: treats every interval value as one `timedelta(minutes=...)` accepts (lines 83-85). In the code a non-numeric interval raises an uncaught `TypeError`; for the update interval that happens after the renewal job is registered. The model has no number type for descriptor values to express this.
- Ordering between API calls and effects: `Stage`, `Setup` and `Sweep` keep requests and actions as two separate lists, so only the order within each list is modelled. In the code each upload comes after its own key generation and before the next one (lines 51-61), and each configuration fetch comes before that interface's file write and `systemctl` calls (lines 113-139).
- PeerConfig.IsDigit: covers ASCII digits only. Python's `\d` also matches other Unicode decimal digits.
- Decoding the response body as UTF-8 (line 121) is not modelled; the body is already a string.
- `fail_reason` kept as a field of the manager object, and the `print` logging of failures, are not modelled.
- `apps/overlay_manager/manager.py`, `apps/wiregaurd_manager/manager.py` and `apps/overlay_manager/exceptions.py` are not part of this model. They are API-creation glue, stubs, and exception classes; `StartupError` is the `LoadError.StartupError` variant here.
- A directory-polling supervisor, reuse of an existing key pair, and seeding the hash from the tunnel file on disk do not occur in the code, so they are not modelled.

=== FILE: agent.dfy ===
/** One interface's state and the three steps the manager applies to it:
    key provisioning at load, token renewal and configuration sync. Each
    step is a pure function of the record and the management API's reply;
    shell commands and file writes come out as a list of actions. */
module Agent {
  import opened Wrappers
  import opened Names
  import opened PeerConfig
  import opened Descriptor

  /** An interface as the manager holds it once its keys are set up. */
  datatype Interface = Interface(
    name: string,
    overlayId: string,
    deviceId: string,
    virtualAddress: string,
    listenPort: string,
    token: string,
    tokenExpiry: Option<string>,
    configHash: Option<string>,
    privateKey: string,
    privateKeyPath: string,
    publicKeyPath: string,
    config: string)

  datatype Job = RenewTokens | UpdateConfig

  /** Effects on the host: timer jobs, shell commands and file writes. */
  datatype Action =
    | RegisterJob(minutes: string, job: Job)
    | GenerateKeyPair(privateKeyPath: string, publicKeyPath: string)
    | WriteConf(path: string, content: string)
    | Enable(service: string)
    | Start(service: string)
    | Restart(service: string)

  /** A call to the management API, authorised with a bearer token. */
  datatype Request =
    | Get(url: string, bearer: string)
    | Put(url: string, bearer: string, publicKey: string)

  /** What the management API answered. */
  datatype Reply<T> = Reply(status: int, body: T)

  datatype TokenGrant = TokenGrant(token: string, expiryTs: string)

  /** What key setup gets back: the key files' contents after generation and
      the status of the public-key upload. */
  datatype KeyReply = KeyReply(privateKey: string, publicKey: string, publishStatus: int)

  /** The static part of a tunnel file, rendered from the private key, the
      virtual address and the listen port. */
  type Template = (string, string, string) -> string

  /** The hex digest of a block; only equality of digests is ever observed. */
  type Digest = string -> string

  /** Truth value of a response object: false exactly for 4xx and 5xx. */
  predicate Truthy(status: int)
  {
    !(400 <= status < 600)
  }

  datatype Provisioned = Provisioned(actions: seq<Action>, request: Request, result: Result<Interface, string>)

  datatype SyncStep = SyncStep(iface: Interface, actions: seq<Action>)

  function PublishFailure(name: string): string
  {
    "Could not update " + name + "'s public key"
  }

  function TokenRequest(server: string, iface: Interface): Request
  {
    Get(server + "/devices/" + iface.deviceId + "/token", iface.token)
  }

  function ConfigRequest(server: string, iface: Interface): Request
  {
    Get(server + "/overlays/" + iface.overlayId + "/devices/" + iface.deviceId + "/wgconfig", iface.token)
  }

  /** Key setup for one interface, followed by rendering its static block:
      a key pair is generated under paths named after the interface, the
      public key is uploaded, and only an accepted upload yields a record
      (with both paths); a refused one aborts start-up. */
  function Provision(server: string, fields: Fields, reply: KeyReply, template: Template): (p: Provisioned)
    requires InterfaceComplete(fields)
    ensures p.actions == [GenerateKeyPair(PrivateKeyPath(fields["name"]), PublicKeyPath(fields["name"]))]
    ensures p.request == Put(server + "/devices/" + fields["device_id"], fields["token"], reply.publicKey)
    ensures p.result.Success? <==> Truthy(reply.publishStatus)
    ensures p.result.Failure? ==> p.result.error == PublishFailure(fields["name"])
  {
    var name := fields["name"];
    var privatePath := PrivateKeyPath(name);
    var publicPath := PublicKeyPath(name);
    var request := Put(server + "/devices/" + fields["device_id"], fields["token"], reply.publicKey);
    var result :=
      if Truthy(reply.publishStatus) then
        Success(Interface(
          name, fields["overlay_id"], fields["device_id"], fields["virtual_address"], fields["listen_port"],
          fields["token"], Lookup(fields, "token_expiry_ts"), Lookup(fields, "config_hash"),
          reply.privateKey, privatePath, publicPath,
          template(reply.privateKey, fields["virtual_address"], fields["listen_port"])))
      else
        Failure(PublishFailure(name));
    Provisioned([GenerateKeyPair(privatePath, publicPath)], request, result)
  }

  /** A provisioned record takes its identity and token from the descriptor,
      its key from the generated files, key paths derived from its name alone,
      and its static block from the template. */
  lemma ProvisionRecordsInterface(server: string, fields: Fields, reply: KeyReply, template: Template)
    requires InterfaceComplete(fields)
    requires Truthy(reply.publishStatus)
    ensures var iface := Provision(server, fields, reply, template).result.value;
      && iface.name == fields["name"]
      && iface.overlayId == fields["overlay_id"]
      && iface.deviceId == fields["device_id"]
      && iface.virtualAddress == fields["virtual_address"]
      && iface.listenPort == fields["listen_port"]
      && iface.token == fields["token"]
      && iface.privateKeyPath == PrivateKeyPath(iface.name)
      && iface.publicKeyPath == PublicKeyPath(iface.name)
      && iface.privateKey == reply.privateKey
      && iface.config == template(reply.privateKey, fields["virtual_address"], fields["listen_port"])
      && iface.tokenExpiry == Lookup(fields, "token_expiry_ts")
      && iface.configHash == Lookup(fields, "config_hash")
  {
  }

  /** The two records agree on everything but the credential. */
  predicate SameButCredential(a: Interface, b: Interface)
  {
    a.(token := b.token, tokenExpiry := b.tokenExpiry) == b
  }

  /** The two records agree on everything but the stored hash. */
  predicate SameButHash(a: Interface, b: Interface)
  {
    a.(configHash := b.configHash) == b
  }

  /** Token renewal for one interface: an accepted reply replaces the token
      and its expiry together, from that one reply; a refused one leaves the
      record exactly as it was. Nothing else in the record changes. */
  function Renew(iface: Interface, reply: Reply<TokenGrant>): (r: Interface)
    ensures SameButCredential(r, iface)
    ensures Truthy(reply.status) ==> r.token == reply.body.token && r.tokenExpiry == Some(reply.body.expiryTs)
    ensures !Truthy(reply.status) ==> r == iface
  {
    if Truthy(reply.status) then
      iface.(token := reply.body.token, tokenExpiry := Some(reply.body.expiryTs))
    else
      iface
  }

  /** Configuration sync for one interface. A reply other than 200 changes
      nothing. Otherwise the normalised block is hashed and compared with the
      stored hash: with none stored the tunnel file is written and the service
      enabled and started; with a different one the file is written and the
      service restarted; with the same one nothing happens. In every 200 case
      the stored hash ends up as the new digest. */
  function Sync(iface: Interface, reply: Reply<string>, digest: Digest): (s: SyncStep)
    ensures SameButHash(s.iface, iface)
    ensures reply.status != 200 ==> s == SyncStep(iface, [])
    ensures reply.status == 200 ==> s.iface.configHash == Some(digest(Normalise(reply.body)))
    ensures reply.status == 200 && iface.configHash.None? ==>
      s.actions == [
        WriteConf(ConfigPath(iface.name), iface.config + Normalise(reply.body)),
        Enable(ServiceName(iface.name)),
        Start(ServiceName(iface.name))]
    ensures reply.status == 200 && iface.configHash.Some? && iface.configHash.value != digest(Normalise(reply.body)) ==>
      s.actions == [
        WriteConf(ConfigPath(iface.name), iface.config + Normalise(reply.body)),
        Restart(ServiceName(iface.name))]
    ensures reply.status == 200 && iface.configHash == Some(digest(Normalise(reply.body))) ==>
      s == SyncStep(iface, [])
  {
    if reply.status == 200 then
      var peer := Normalise(reply.body);
      var hash := digest(peer);
      var write := WriteConf(ConfigPath(iface.name), iface.config + peer);
      var service := ServiceName(iface.name);
      match iface.configHash
      case None => SyncStep(iface.(configHash := Some(hash)), [write, Enable(service), Start(service)])
      case Some(previous) =>
        if previous != hash then SyncStep(iface.(configHash := Some(hash)), [write, Restart(service)])
        else SyncStep(iface, [])
    else
      SyncStep(iface, [])
  }

  /** The action a sync performs touches only this interface's own tunnel
      file and service. */
  predicate OwnedBy(a: Action, name: string)
  {
    match a
    case WriteConf(path, _) => path == ConfigPath(name)
    case Enable(service) => service == ServiceName(name)
    case Start(service) => service == ServiceName(name)
    case Restart(service) => service == ServiceName(name)
    case _ => false
  }

  /** A sync writes and touches the service exactly when the fetch succeeded
      and the digest differs from the stored one (or none is stored); every
      action it takes is on the interface's own resources. */
  lemma SyncActsIffChanged(iface: Interface, reply: Reply<string>, digest: Digest)
    ensures Sync(iface, reply, digest).actions != [] <==>
      reply.status == 200 && iface.configHash != Some(digest(Normalise(reply.body)))
    ensures forall a | a in Sync(iface, reply, digest).actions :: OwnedBy(a, iface.name)
  {
  }

  /** Repeating a sync with the same reply is a no-op: the first one already
      stored the digest it would compare against. */
  lemma SyncIdempotent(iface: Interface, reply: Reply<string>, digest: Digest)
    ensures var once := Sync(iface, reply, digest);
      Sync(once.iface, reply, digest) == SyncStep(once.iface, [])
  {
  }

  /** Renewal and sync touch disjoint parts of the record, so their order does
      not matter to the resulting state or to what sync does. */
  lemma RenewSyncCommute(iface: Interface, grant: Reply<TokenGrant>, reply: Reply<string>, digest: Digest)
    ensures Sync(Renew(iface, grant), reply, digest).iface == Renew(Sync(iface, reply, digest).iface, grant)
    ensures Sync(Renew(iface, grant), reply, digest).actions == Sync(iface, reply, digest).actions
  {
  }

  /** The requests of a renewal and a sync carry the record's current token,
      so a sync that follows a successful renewal presents the new token. */
  lemma SyncAfterRenewUsesNewToken(server: string, iface: Interface, grant: Reply<TokenGrant>)
    ensures Truthy(grant.status) ==> ConfigRequest(server, Renew(iface, grant)).bearer == grant.body.token
    ensures !Truthy(grant.status) ==> ConfigRequest(server, Renew(iface, grant)).bearer == iface.token
  {
  }
}

=== FILE: descriptor.dfy ===
/** The descriptor file as `json.load` returns it, and the required-key check
    that decides whether the manager may start. */
module Descriptor {
  import opened Wrappers

  /** A JSON object; every value is taken to be a string. */
  type Fields = map<string, string>

  /** The top-level object: scalar settings, and the "interfaces" list of
      interface objects when that key is present. */
  datatype Document = Document(settings: Fields, interfaces: Option<seq<Fields>>)

  /** Outcome of the check; `reason` is what the manager keeps as its
      fail_reason. */
  datatype Verdict = Valid | Invalid(reason: string)

  const ConfigFileParameters: seq<string> := ["interfaces", "manager_server_address"]

  const InterfaceConfigParameters: seq<string> :=
    ["name", "overlay_id", "device_id", "virtual_address", "listen_port", "token"]

  /** The keys of the top-level object. */
  function TopKeys(doc: Document): set<string>
  {
    (doc.settings.Keys - {"interfaces"}) + (if doc.interfaces.Some? then {"interfaces"} else {})
  }

  function TopLevelReason(key: string): string
  {
    key + " missing from the config file"
  }

  function InterfaceReason(key: string): string
  {
    key + " missing from the interface config"
  }

  predicate HasAll(required: seq<string>, present: set<string>)
  {
    forall i | 0 <= i < |required| :: required[i] in present
  }

  /** An interface object carries every key of the required list; the
      contract spells the six keys out, so that a lookup of any of them is
      known to be defined wherever the interface is known complete. */
  function InterfaceComplete(f: Fields): (b: bool)
    ensures b <==>
      && "name" in f && "overlay_id" in f && "device_id" in f
      && "virtual_address" in f && "listen_port" in f && "token" in f
  {
    assert InterfaceConfigParameters[0] == "name" && InterfaceConfigParameters[1] == "overlay_id";
    assert InterfaceConfigParameters[2] == "device_id" && InterfaceConfigParameters[3] == "virtual_address";
    assert InterfaceConfigParameters[4] == "listen_port" && InterfaceConfigParameters[5] == "token";
    HasAll(InterfaceConfigParameters, f.Keys)
  }

  /** Every required key is present, at the top level and in every interface. */
  predicate Conforms(doc: Document)
  {
    && HasAll(ConfigFileParameters, TopKeys(doc))
    && doc.interfaces.Some?
    && forall n | 0 <= n < |doc.interfaces.value| :: InterfaceComplete(doc.interfaces.value[n])
  }

  /** The position of the first required key that is absent, scanning the
      list in order. */
  function FirstMissing(required: seq<string>, present: set<string>): (r: Option<nat>)
    ensures r.None? <==> HasAll(required, present)
    ensures r.Some? ==>
      && r.value < |required|
      && required[r.value] !in present
      && forall j | 0 <= j < r.value :: required[j] in present
  {
    if |required| == 0 then None
    else if required[0] !in present then Some(0)
    else match FirstMissing(required[1..], present)
      case None => None
      case Some(i) => Some(i + 1)
  }

  /** The position of the first interface that lacks a required key. */
  function FirstIncomplete(interfaces: seq<Fields>): (r: Option<nat>)
    ensures r.None? <==> forall n | 0 <= n < |interfaces| :: InterfaceComplete(interfaces[n])
    ensures r.Some? ==>
      && r.value < |interfaces|
      && !InterfaceComplete(interfaces[r.value])
      && forall m | 0 <= m < r.value :: InterfaceComplete(interfaces[m])
  {
    if |interfaces| == 0 then None
    else if !InterfaceComplete(interfaces[0]) then Some(0)
    else match FirstIncomplete(interfaces[1..])
      case None => None
      case Some(n) => Some(n + 1)
  }

  /** The required-key check: top-level keys first, then each interface in
      order; it stops at the first absent key and names it. */
  function Validate(doc: Document): (v: Verdict)
    ensures v.Valid? <==> Conforms(doc)
    ensures !HasAll(ConfigFileParameters, TopKeys(doc)) ==>
      v == Invalid(TopLevelReason(ConfigFileParameters[FirstMissing(ConfigFileParameters, TopKeys(doc)).value]))
  {
    match FirstMissing(ConfigFileParameters, TopKeys(doc))
    case Some(i) => Invalid(TopLevelReason(ConfigFileParameters[i]))
    case None =>
      assert ConfigFileParameters[0] in TopKeys(doc);
      var interfaces := doc.interfaces.value;
      match FirstIncomplete(interfaces)
      case Some(n) =>
        var k := FirstMissing(InterfaceConfigParameters, interfaces[n].Keys).value;
        Invalid(InterfaceReason(InterfaceConfigParameters[k]))
      case None => Valid
  }

  /** The scan result is determined by the first absent key: whichever
      position is absent with everything before it present is the answer. */
  lemma FirstMissingIsFirst(required: seq<string>, present: set<string>, i: nat)
    requires i < |required| && required[i] !in present
    requires forall j | 0 <= j < i :: required[j] in present
    ensures FirstMissing(required, present) == Some(i)
  {
  }

  lemma FirstIncompleteIsFirst(interfaces: seq<Fields>, n: nat)
    requires n < |interfaces| && !InterfaceComplete(interfaces[n])
    requires forall m | 0 <= m < n :: InterfaceComplete(interfaces[m])
    ensures FirstIncomplete(interfaces) == Some(n)
  {
  }

  /** A missing top-level key is reported by name, and it is the first absent
      one in list order. */
  lemma ValidateNamesFirstTopKey(doc: Document, i: nat)
    requires i < |ConfigFileParameters|
    requires ConfigFileParameters[i] !in TopKeys(doc)
    requires forall j | 0 <= j < i :: ConfigFileParameters[j] in TopKeys(doc)
    ensures Validate(doc) == Invalid(TopLevelReason(ConfigFileParameters[i]))
  {
  }

  /** Once every top-level key is present, the reason names the first absent
      key of the first incomplete interface; later interfaces are not looked at. */
  lemma ValidateNamesFirstInterfaceKey(doc: Document, n: nat, i: nat)
    requires HasAll(ConfigFileParameters, TopKeys(doc))
    requires doc.interfaces.Some? && n < |doc.interfaces.value|
    requires forall m | 0 <= m < n :: InterfaceComplete(doc.interfaces.value[m])
    requires i < |InterfaceConfigParameters|
    requires InterfaceConfigParameters[i] !in doc.interfaces.value[n]
    requires forall j | 0 <= j < i :: InterfaceConfigParameters[j] in doc.interfaces.value[n]
    ensures Validate(doc) == Invalid(InterfaceReason(InterfaceConfigParameters[i]))
  {
  }
}

=== FILE: manager.dfy ===
/** The manager as a whole: loading the descriptor file, one renewal pass and
    one sync pass over every interface, and the bootstrap that runs them in
    that order before the timers take over. */
module WireguardManager {
  import opened Wrappers
  import opened Names
  import opened Descriptor
  import opened Agent

  /** What reading the descriptor file produced: no file at the path, a file
      that could not be opened or decoded for another reason (the exception's
      name), text that is not JSON, or the decoded document. */
  datatype ConfigFile = Missing | Unreadable(exception: string) | Malformed | Parsed(doc: Document)

  /** Why start-up stopped: the manager's own StartupError, or an exception
      the loader does not catch. */
  datatype LoadError =
    | StartupError(message: string)
    | Uncaught(exception: string)
    | JsonDecodeError
    | KeyError(key: string)

  datatype Manager = Manager(server: string, interfaces: seq<Interface>)

  /** Effects and API calls of a stage, each list in the order its items
      happen, and the stage's result. How the two lists interleave is not
      recorded. */
  datatype Stage<T> = Stage(actions: seq<Action>, requests: seq<Request>, result: Result<T, LoadError>)

  datatype Setup = Setup(actions: seq<Action>, requests: seq<Request>, result: Result<seq<Interface>, string>)

  datatype Renewal = Renewal(interfaces: seq<Interface>, requests: seq<Request>)

  datatype Sweep = Sweep(interfaces: seq<Interface>, requests: seq<Request>, actions: seq<Action>)

  /** Concatenation of a list of lists, in order. */
  function Flatten<T>(ss: seq<seq<T>>): seq<T>
  {
    if |ss| == 0 then [] else ss[0] + Flatten(ss[1..])
  }

  const RefreshIntervalKey: string := "token_refresh_interval"
  const UpdateIntervalKey: string := "config_update_interval"

  function NoConfigFile(path: string): string
  {
    "No config file found in this path: " + path
  }

  /** How many interface objects the file lists; one API reply is expected
      per interface at every stage. */
  function InterfaceCount(file: ConfigFile): nat
  {
    if file.Parsed? && file.doc.interfaces.Some? then |file.doc.interfaces.value| else 0
  }

  /** Key setup over the interfaces in order, stopping at the first refused
      upload: every interface up to and including that one has had its key
      pair generated and its upload attempted, none after it. */
  function ProvisionAll(server: string, raw: seq<Fields>, replies: seq<KeyReply>, template: Template): (s: Setup)
    requires |replies| == |raw|
    requires forall i | 0 <= i < |raw| :: InterfaceComplete(raw[i])
    ensures |s.actions| == |s.requests| <= |raw|
    ensures s.result.Success? ==> |s.actions| == |raw| && |s.result.value| == |raw|
    ensures s.result.Failure? ==> 0 < |s.actions|
    decreases |raw|
  {
    if |raw| == 0 then Setup([], [], Success([]))
    else
      var p := Provision(server, raw[0], replies[0], template);
      match p.result
      case Failure(e) => Setup(p.actions, [p.request], Failure(e))
      case Success(iface) =>
        var rest := ProvisionAll(server, raw[1..], replies[1..], template);
        var result := match rest.result
          case Success(more) => Success([iface] + more)
          case Failure(e) => Failure(e);
        Setup(p.actions + rest.actions, [p.request] + rest.requests, result)
  }

  /** Key setup succeeds exactly when every upload is accepted, and then
      yields the provisioned records in descriptor order. */
  lemma {:induction false} ProvisionAllSucceedsIffAllAccepted(server: string, raw: seq<Fields>, replies: seq<KeyReply>, template: Template)
    requires |replies| == |raw|
    requires forall i | 0 <= i < |raw| :: InterfaceComplete(raw[i])
    ensures var s := ProvisionAll(server, raw, replies, template);
      && (s.result.Success? <==> forall i | 0 <= i < |raw| :: Truthy(replies[i].publishStatus))
      && (s.result.Success? ==> forall i | 0 <= i < |raw| ::
            Provision(server, raw[i], replies[i], template).result == Success(s.result.value[i]))
    decreases |raw|
  {
    if |raw| > 0 {
      var p := Provision(server, raw[0], replies[0], template);
      if p.result.Success? {
        ProvisionAllSucceedsIffAllAccepted(server, raw[1..], replies[1..], template);
        var rest := ProvisionAll(server, raw[1..], replies[1..], template);
        var s := ProvisionAll(server, raw, replies, template);
        assert s.result.Success? <==> rest.result.Success?;
        forall i | 1 <= i < |raw|
          ensures raw[i] == raw[1..][i - 1] && replies[i] == replies[1..][i - 1]
        {
        }
        if s.result.Success? {
          assert s.result.value == [p.result.value] + rest.result.value;
        }
      }
    }
  }

  /** Every attempted interface gets a key pair named after it and one upload
      of its public key, in descriptor order. */
  lemma {:induction false} ProvisionAllNamesKeys(server: string, raw: seq<Fields>, replies: seq<KeyReply>, template: Template)
    requires |replies| == |raw|
    requires forall i | 0 <= i < |raw| :: InterfaceComplete(raw[i])
    ensures var s := ProvisionAll(server, raw, replies, template);
      forall i | 0 <= i < |s.actions| ::
        && s.actions[i] == GenerateKeyPair(PrivateKeyPath(raw[i]["name"]), PublicKeyPath(raw[i]["name"]))
        && s.requests[i] == Put(server + "/devices/" + raw[i]["device_id"], raw[i]["token"], replies[i].publicKey)
    decreases |raw|
  {
    if |raw| > 0 {
      var p := Provision(server, raw[0], replies[0], template);
      if p.result.Success? {
        ProvisionAllNamesKeys(server, raw[1..], replies[1..], template);
        var rest := ProvisionAll(server, raw[1..], replies[1..], template);
        var s := ProvisionAll(server, raw, replies, template);
        assert s.actions == p.actions + rest.actions;
        assert s.requests == [p.request] + rest.requests;
        forall i | 0 <= i < |s.actions|
          ensures s.actions[i] == GenerateKeyPair(PrivateKeyPath(raw[i]["name"]), PublicKeyPath(raw[i]["name"]))
          ensures s.requests[i] == Put(server + "/devices/" + raw[i]["device_id"], raw[i]["token"], replies[i].publicKey)
        {
          if i > 0 {
            assert raw[i] == raw[1..][i - 1] && replies[i] == replies[1..][i - 1];
            assert s.actions[i] == rest.actions[i - 1] && s.requests[i] == rest.requests[i - 1];
          }
        }
      }
    }
  }

  /** An aborted key setup stops right after the first refused upload and
      reports that interface by name. */
  lemma {:induction false} ProvisionAllStopsAtFirstRefusal(server: string, raw: seq<Fields>, replies: seq<KeyReply>, template: Template)
    requires |replies| == |raw|
    requires forall i | 0 <= i < |raw| :: InterfaceComplete(raw[i])
    ensures var s := ProvisionAll(server, raw, replies, template);
      s.result.Failure? ==>
        && (forall j | 0 <= j < |s.actions| - 1 :: Truthy(replies[j].publishStatus))
        && !Truthy(replies[|s.actions| - 1].publishStatus)
        && s.result.error == PublishFailure(raw[|s.actions| - 1]["name"])
    decreases |raw|
  {
    if |raw| > 0 {
      var p := Provision(server, raw[0], replies[0], template);
      if p.result.Success? {
        var rest := ProvisionAll(server, raw[1..], replies[1..], template);
        ProvisionAllStopsAtFirstRefusal(server, raw[1..], replies[1..], template);
        var s := ProvisionAll(server, raw, replies, template);
        assert s.actions == p.actions + rest.actions;
        assert s.result.Failure? <==> rest.result.Failure?;
        if rest.result.Failure? {
          assert s.result.error == rest.result.error;
          var k := |rest.actions| - 1;
          assert raw[k + 1] == raw[1..][k];
          assert replies[k + 1] == replies[1..][k];
          forall j | 1 <= j < k + 1
            ensures Truthy(replies[j].publishStatus)
          {
            assert replies[j] == replies[1..][j - 1];
          }
        }
      }
    }
  }

  /** The manager's server address, present in every conforming document. */
  function ServerAddress(doc: Document): (a: string)
    requires Conforms(doc)
    ensures "manager_server_address" in doc.settings && a == doc.settings["manager_server_address"]
  {
    assert ConfigFileParameters[1] in TopKeys(doc);
    doc.settings["manager_server_address"]
  }

  /** Loading the descriptor file. A missing file, a malformed one and one
      that fails the required-key check stop start-up before any job is
      registered or any key generated. A valid file registers the renewal
      job, then the sync job (reading the two intervals, which the check
      does not cover), then sets up the interfaces' keys. */
  function Load(path: string, file: ConfigFile, template: Template, keyReplies: seq<KeyReply>): (l: Stage<Manager>)
    requires |keyReplies| == InterfaceCount(file)
    ensures file.Missing? ==> l == Stage([], [], Failure(StartupError(NoConfigFile(path))))
    ensures file.Unreadable? ==> l == Stage([], [], Failure(Uncaught(file.exception)))
    ensures file.Malformed? ==> l == Stage([], [], Failure(JsonDecodeError))
    ensures file.Parsed? && !Conforms(file.doc) ==>
      l == Stage([], [], Failure(StartupError(Validate(file.doc).reason)))
    ensures file.Parsed? && Conforms(file.doc) && RefreshIntervalKey !in file.doc.settings ==>
      l == Stage([], [], Failure(KeyError(RefreshIntervalKey)))
    ensures (file.Parsed? && Conforms(file.doc) && RefreshIntervalKey in file.doc.settings
      && UpdateIntervalKey !in file.doc.settings) ==>
      l == Stage([RegisterJob(file.doc.settings[RefreshIntervalKey], RenewTokens)], [], Failure(KeyError(UpdateIntervalKey)))
    ensures (file.Parsed? && Conforms(file.doc) && RefreshIntervalKey in file.doc.settings
      && UpdateIntervalKey in file.doc.settings) ==>
      var server := ServerAddress(file.doc);
      var setup := ProvisionAll(server, file.doc.interfaces.value, keyReplies, template);
      && l.actions == [RegisterJob(file.doc.settings[RefreshIntervalKey], RenewTokens),
                       RegisterJob(file.doc.settings[UpdateIntervalKey], UpdateConfig)] + setup.actions
      && l.requests == setup.requests
      && (setup.result.Failure? ==> l.result == Failure(StartupError(setup.result.error)))
      && (setup.result.Success? ==> l.result == Success(Manager(server, setup.result.value)))
    ensures l.result.Success? ==>
      && file.Parsed? && Conforms(file.doc)
      && RefreshIntervalKey in file.doc.settings && UpdateIntervalKey in file.doc.settings
      && "manager_server_address" in file.doc.settings
      && |l.actions| == 2 + InterfaceCount(file)
      && l.actions[0] == RegisterJob(file.doc.settings[RefreshIntervalKey], RenewTokens)
      && l.actions[1] == RegisterJob(file.doc.settings[UpdateIntervalKey], UpdateConfig)
      && l.result.value.server == file.doc.settings["manager_server_address"]
      && |l.result.value.interfaces| == InterfaceCount(file)
    ensures l.result.Success? <==>
      && file.Parsed? && Conforms(file.doc)
      && RefreshIntervalKey in file.doc.settings && UpdateIntervalKey in file.doc.settings
      && forall i | 0 <= i < |keyReplies| :: Truthy(keyReplies[i].publishStatus)
  {
    match file
    case Missing => Stage([], [], Failure(StartupError(NoConfigFile(path))))
    case Unreadable(exception) => Stage([], [], Failure(Uncaught(exception)))
    case Malformed => Stage([], [], Failure(JsonDecodeError))
    case Parsed(doc) =>
      match Validate(doc)
      case Invalid(reason) => Stage([], [], Failure(StartupError(reason)))
      case Valid =>
        var server := ServerAddress(doc);
        if RefreshIntervalKey !in doc.settings then
          Stage([], [], Failure(KeyError(RefreshIntervalKey)))
        else
          var renewJob := RegisterJob(doc.settings[RefreshIntervalKey], RenewTokens);
          if UpdateIntervalKey !in doc.settings then
            Stage([renewJob], [], Failure(KeyError(UpdateIntervalKey)))
          else
            var jobs := [renewJob, RegisterJob(doc.settings[UpdateIntervalKey], UpdateConfig)];
            var setup := ProvisionAll(server, doc.interfaces.value, keyReplies, template);
            ProvisionAllSucceedsIffAllAccepted(server, doc.interfaces.value, keyReplies, template);
            var result := match setup.result
              case Success(interfaces) => Success(Manager(server, interfaces))
              case Failure(message) => Failure(StartupError(message));
            Stage(jobs + setup.actions, setup.requests, result)
  }

  /** One renewal pass: every interface is renewed from its own reply alone,
      each request presenting that interface's current token. */
  function RenewAll(server: string, interfaces: seq<Interface>, replies: seq<Reply<TokenGrant>>): (r: Renewal)
    requires |replies| == |interfaces|
    ensures |r.interfaces| == |interfaces| && |r.requests| == |interfaces|
    ensures forall i | 0 <= i < |interfaces| ::
      && r.interfaces[i] == Renew(interfaces[i], replies[i])
      && r.requests[i] == TokenRequest(server, interfaces[i])
    decreases |interfaces|
  {
    if |interfaces| == 0 then Renewal([], [])
    else
      var rest := RenewAll(server, interfaces[1..], replies[1..]);
      Renewal([Renew(interfaces[0], replies[0])] + rest.interfaces, [TokenRequest(server, interfaces[0])] + rest.requests)
  }

  /** What each interface's own sync does, listed in descriptor order. */
  function SyncActions(interfaces: seq<Interface>, replies: seq<Reply<string>>, digest: Digest): seq<seq<Action>>
    requires |replies| == |interfaces|
  {
    seq(|interfaces|, i requires 0 <= i < |interfaces| => Sync(interfaces[i], replies[i], digest).actions)
  }

  lemma SyncActionsTail(interfaces: seq<Interface>, replies: seq<Reply<string>>, digest: Digest)
    requires 0 < |interfaces| && |replies| == |interfaces|
    ensures SyncActions(interfaces, replies, digest)
      == [Sync(interfaces[0], replies[0], digest).actions] + SyncActions(interfaces[1..], replies[1..], digest)
  {
  }

  /** One sync pass: every interface is synced from its own reply alone; the
      pass acts only when some interface's configuration changed, and every
      action lands on the resources of one of the interfaces. */
  function SyncAll(server: string, interfaces: seq<Interface>, replies: seq<Reply<string>>, digest: Digest): (s: Sweep)
    requires |replies| == |interfaces|
    ensures |s.interfaces| == |interfaces| && |s.requests| == |interfaces|
    ensures forall i | 0 <= i < |interfaces| ::
      && s.interfaces[i] == Sync(interfaces[i], replies[i], digest).iface
      && s.requests[i] == ConfigRequest(server, interfaces[i])
    ensures s.actions == Flatten(SyncActions(interfaces, replies, digest))
    ensures s.actions == [] <==> forall i | 0 <= i < |interfaces| :: Sync(interfaces[i], replies[i], digest).actions == []
    ensures forall a | a in s.actions :: exists i | 0 <= i < |interfaces| :: OwnedBy(a, interfaces[i].name)
    decreases |interfaces|
  {
    if |interfaces| == 0 then Sweep([], [], [])
    else
      var step := Sync(interfaces[0], replies[0], digest);
      SyncActsIffChanged(interfaces[0], replies[0], digest);
      var rest := SyncAll(server, interfaces[1..], replies[1..], digest);
      SyncActionsTail(interfaces, replies, digest);
      Sweep([step.iface] + rest.interfaces, [ConfigRequest(server, interfaces[0])] + rest.requests, step.actions + rest.actions)
  }

  /** The pass bootstrap makes once loading has succeeded: renew every
      token, then sync every interface. Each interface ends as sync applied
      to renew applied to its loaded record; the token requests carry the
      loaded tokens, and each configuration fetch carries the token its
      renewal just obtained, or the loaded one when renewal was refused. */
  function FirstPass(m: Manager, grants: seq<Reply<TokenGrant>>, peerReplies: seq<Reply<string>>, digest: Digest): (p: Sweep)
    requires |grants| == |m.interfaces| && |peerReplies| == |m.interfaces|
    ensures |p.interfaces| == |m.interfaces| && |p.requests| == 2 * |m.interfaces|
    ensures forall i | 0 <= i < |m.interfaces| ::
      p.interfaces[i] == Sync(Renew(m.interfaces[i], grants[i]), peerReplies[i], digest).iface
    ensures p.actions == Flatten(SyncActions(RenewEach(m.interfaces, grants), peerReplies, digest))
    ensures forall i | 0 <= i < |m.interfaces| ::
      && p.requests[i] == TokenRequest(m.server, m.interfaces[i])
      && p.requests[|m.interfaces| + i] == ConfigRequest(m.server, Renew(m.interfaces[i], grants[i]))
      && p.requests[|m.interfaces| + i].bearer ==
        (if Truthy(grants[i].status) then grants[i].body.token else m.interfaces[i].token)
  {
    var renewed := RenewAll(m.server, m.interfaces, grants);
    var synced := SyncAll(m.server, renewed.interfaces, peerReplies, digest);
    var requests := renewed.requests + synced.requests;
    forall i | 0 <= i < |m.interfaces|
      ensures requests[i] == renewed.requests[i] && requests[|m.interfaces| + i] == synced.requests[i]
      ensures synced.requests[i].bearer == (if Truthy(grants[i].status) then grants[i].body.token else m.interfaces[i].token)
    {
      SyncAfterRenewUsesNewToken(m.server, m.interfaces[i], grants[i]);
    }
    RenewAllIsRenewEach(m.server, m.interfaces, grants);
    Sweep(synced.interfaces, requests, synced.actions)
  }

  /** Every interface renewed from its own reply, one by one. */
  function RenewEach(interfaces: seq<Interface>, grants: seq<Reply<TokenGrant>>): seq<Interface>
    requires |grants| == |interfaces|
  {
    seq(|interfaces|, i requires 0 <= i < |interfaces| => Renew(interfaces[i], grants[i]))
  }

  /** A renewal pass yields exactly the interfaces renewed one by one. */
  lemma RenewAllIsRenewEach(server: string, interfaces: seq<Interface>, grants: seq<Reply<TokenGrant>>)
    requires |grants| == |interfaces|
    ensures RenewAll(server, interfaces, grants).interfaces == RenewEach(interfaces, grants)
  {
  }

  /** Start-up: load, then renew every token once, then sync every interface
      once. A failed load stops there, with nothing renewed or synced. */
  function Bootstrap(
    path: string, file: ConfigFile, template: Template, digest: Digest,
    keyReplies: seq<KeyReply>, grants: seq<Reply<TokenGrant>>, peerReplies: seq<Reply<string>>): (b: Stage<Manager>)
    requires |keyReplies| == InterfaceCount(file)
    requires |grants| == InterfaceCount(file) && |peerReplies| == InterfaceCount(file)
    ensures var loaded := Load(path, file, template, keyReplies);
      && (loaded.result.Failure? ==> b == loaded)
      && (b.result.Success? <==> loaded.result.Success?)
      && (b.result.Success? ==>
        var pass := FirstPass(loaded.result.value, grants, peerReplies, digest);
        && b.actions == loaded.actions + pass.actions
        && b.requests == loaded.requests + pass.requests
        && b.result.value == Manager(loaded.result.value.server, pass.interfaces))
  {
    var loaded := Load(path, file, template, keyReplies);
    match loaded.result
    case Failure(_) => loaded
    case Success(m) =>
      var pass := FirstPass(m, grants, peerReplies, digest);
      Stage(loaded.actions + pass.actions, loaded.requests + pass.requests, Success(Manager(m.server, pass.interfaces)))
  }
}

=== FILE: names.dfy ===
/** The names an interface's OS resources get. Every one of them is derived
    from the interface name alone, which is what makes each tunnel resource
    the exclusive property of one interface. */
module Names {

  const WireguardDir: string := "/etc/wireguard/"

  /** The tunnel configuration file wg-quick reads. */
  function ConfigPath(name: string): string
  {
    WireguardDir + name + ".conf"
  }

  /** The systemd unit that brings the tunnel up. */
  function ServiceName(name: string): string
  {
    "wg-quick@" + name
  }

  function PrivateKeyPath(name: string): string
  {
    WireguardDir + "privatekey_" + name
  }

  function PublicKeyPath(name: string): string
  {
    WireguardDir + "publickey_" + name
  }

  /** Two strings that share a prefix and a suffix differ only in the middle. */
  lemma {:induction false} StripAffixes(p: string, a: string, b: string, q: string)
    requires p + a + q == p + b + q
    ensures a == b
  {
    var x := p + a + q;
    assert |a| == |b|;
    assert a == x[|p|..|p| + |a|];
    assert b == (p + b + q)[|p|..|p| + |b|];
  }

  /** Distinct interfaces never share a configuration file. */
  lemma ConfigPathInjective(a: string, b: string)
    ensures ConfigPath(a) == ConfigPath(b) <==> a == b
  {
    if ConfigPath(a) == ConfigPath(b) {
      StripAffixes(WireguardDir, a, b, ".conf");
    }
  }

  /** Distinct interfaces never share a service. */
  lemma ServiceNameInjective(a: string, b: string)
    ensures ServiceName(a) == ServiceName(b) <==> a == b
  {
    if ServiceName(a) == ServiceName(b) {
      StripAffixes("wg-quick@", a, b, "");
    }
  }

  /** Distinct interfaces never share a key file. */
  lemma KeyPathsInjective(a: string, b: string)
    ensures PrivateKeyPath(a) == PrivateKeyPath(b) <==> a == b
    ensures PublicKeyPath(a) == PublicKeyPath(b) <==> a == b
  {
    if PrivateKeyPath(a) == PrivateKeyPath(b) {
      StripAffixes(WireguardDir + "privatekey_", a, b, "");
    }
    if PublicKeyPath(a) == PublicKeyPath(b) {
      StripAffixes(WireguardDir + "publickey_", a, b, "");
    }
  }

  /** A private key file is never some interface's public key file. */
  lemma KeyPathsDisjoint(a: string, b: string)
    ensures PrivateKeyPath(a) != PublicKeyPath(b)
  {
    assert PrivateKeyPath(a)[16] == 'r';
    assert PublicKeyPath(b)[16] == 'u';
  }
}

=== FILE: peer_config.dfy ===
/** The normalisation applied to a fetched peer block before it is hashed:
    first every ": " becomes ":", then every "Peer " followed by a run of
    digits becomes "Peer". Both rewrites scan left to right and never
    overlap, as Python's `str.replace` and `re.sub` do. */
module PeerConfig {

  predicate IsDigit(c: char)
  {
    '0' <= c <= '9'
  }

  predicate IsSpace(c: char)
  {
    c == ' '
  }

  predicate IsSpaceOrDigit(c: char)
  {
    c == ' ' || IsDigit(c)
  }

  /** The characters of `s` that `drop` does not select, in order. */
  function Sift(s: string, drop: char -> bool): string
  {
    if |s| == 0 then [] else (if drop(s[0]) then [] else [s[0]]) + Sift(s[1..], drop)
  }

  lemma {:induction false} SiftAppend(a: string, b: string, drop: char -> bool)
    ensures Sift(a + b, drop) == Sift(a, drop) + Sift(b, drop)
  {
    if |a| > 0 {
      assert (a + b)[0] == a[0];
      assert (a + b)[1..] == a[1..] + b;
      SiftAppend(a[1..], b, drop);
    } else {
      assert a + b == b;
    }
  }

  /** ": " occurs at position i. */
  predicate ColonSpaceAt(s: string, i: int)
  {
    0 <= i && i + 1 < |s| && s[i] == ':' && s[i + 1] == ' '
  }

  predicate HasColonSpace(s: string)
  {
    exists i | 0 <= i < |s| :: ColonSpaceAt(s, i)
  }

  /** `s.replace(": ", ":")`. */
  function CollapseColonSpace(s: string): (r: string)
    ensures |r| <= |s|
    decreases |s|
  {
    if |s| < 2 then s
    else if s[0] == ':' && s[1] == ' ' then ":" + CollapseColonSpace(s[2..])
    else [s[0]] + CollapseColonSpace(s[1..])
  }

  /** The length of the run of digits `s` starts with. */
  function DigitRun(s: string): (n: nat)
    ensures n <= |s|
    ensures forall j | 0 <= j < n :: IsDigit(s[j])
    ensures n < |s| ==> !IsDigit(s[n])
  {
    if |s| == 0 || !IsDigit(s[0]) then 0 else 1 + DigitRun(s[1..])
  }

  /** `Peer \d+` matches at position i. */
  predicate PeerNumberAt(s: string, i: int)
  {
    && 0 <= i && i + 5 < |s|
    && s[i] == 'P' && s[i + 1] == 'e' && s[i + 2] == 'e' && s[i + 3] == 'r' && s[i + 4] == ' '
    && IsDigit(s[i + 5])
  }

  predicate HasPeerNumber(s: string)
  {
    exists i | 0 <= i < |s| :: PeerNumberAt(s, i)
  }

  /** `re.sub(r"Peer \d+", "Peer", s)`: the digit run is consumed greedily. */
  function CollapsePeerNumbers(s: string): (r: string)
    ensures |r| <= |s|
    decreases |s|
  {
    if |s| == 0 then s
    else if PeerNumberAt(s, 0) then "Peer" + CollapsePeerNumbers(s[5 + DigitRun(s[5..])..])
    else [s[0]] + CollapsePeerNumbers(s[1..])
  }

  /** The block that gets hashed and written. */
  function Normalise(block: string): string
  {
    CollapsePeerNumbers(CollapseColonSpace(block))
  }

  /** The first rewrite leaves a block alone exactly when it has no ": ";
      otherwise it shortens it. */
  lemma {:induction false} CollapseColonSpaceFixpoint(s: string)
    ensures CollapseColonSpace(s) == s <==> !HasColonSpace(s)
    ensures HasColonSpace(s) ==> |CollapseColonSpace(s)| < |s|
    decreases |s|
  {
    if |s| >= 2 {
      if s[0] == ':' && s[1] == ' ' {
        assert ColonSpaceAt(s, 0);
      } else {
        CollapseColonSpaceFixpoint(s[1..]);
        assert !ColonSpaceAt(s, 0);
        assert HasColonSpace(s) <==> HasColonSpace(s[1..]) by {
          forall i | 1 <= i < |s|
            ensures ColonSpaceAt(s, i) <==> ColonSpaceAt(s[1..], i - 1)
          {
          }
          if HasColonSpace(s) {
            var i :| 0 <= i < |s| && ColonSpaceAt(s, i);
            assert ColonSpaceAt(s[1..], i - 1);
          }
          if HasColonSpace(s[1..]) {
            var i :| 0 <= i < |s[1..]| && ColonSpaceAt(s[1..], i);
            assert ColonSpaceAt(s, i + 1);
          }
        }
        assert [s[0]] + s[1..] == s;
      }
    } else {
      assert !ColonSpaceAt(s, 0);
    }
  }

  /** The first rewrite deletes spaces and nothing else. */
  lemma {:induction false} CollapseColonSpaceDropsOnlySpaces(s: string)
    ensures Sift(CollapseColonSpace(s), IsSpace) == Sift(s, IsSpace)
    decreases |s|
  {
    if |s| >= 2 {
      if s[0] == ':' && s[1] == ' ' {
        CollapseColonSpaceDropsOnlySpaces(s[2..]);
        SiftAppend(":", CollapseColonSpace(s[2..]), IsSpace);
        assert s == ": " + s[2..];
        SiftAppend(": ", s[2..], IsSpace);
      } else {
        CollapseColonSpaceDropsOnlySpaces(s[1..]);
        SiftAppend([s[0]], CollapseColonSpace(s[1..]), IsSpace);
        assert s == [s[0]] + s[1..];
        SiftAppend([s[0]], s[1..], IsSpace);
      }
    }
  }

  /** The second rewrite leaves a block alone exactly when it has no
      "Peer <digits>"; otherwise it shortens it. */
  lemma {:induction false} CollapsePeerNumbersFixpoint(s: string)
    ensures CollapsePeerNumbers(s) == s <==> !HasPeerNumber(s)
    ensures HasPeerNumber(s) ==> |CollapsePeerNumbers(s)| < |s|
    decreases |s|
  {
    if |s| > 0 {
      if PeerNumberAt(s, 0) {
        var rest := s[5 + DigitRun(s[5..])..];
        assert |rest| < |s| - 4;
      } else {
        CollapsePeerNumbersFixpoint(s[1..]);
        assert HasPeerNumber(s) <==> HasPeerNumber(s[1..]) by {
          forall i | 1 <= i < |s|
            ensures PeerNumberAt(s, i) <==> PeerNumberAt(s[1..], i - 1)
          {
          }
          if HasPeerNumber(s) {
            var i :| 0 <= i < |s| && PeerNumberAt(s, i);
            assert i != 0;
            assert PeerNumberAt(s[1..], i - 1);
          }
          if HasPeerNumber(s[1..]) {
            var i :| 0 <= i < |s[1..]| && PeerNumberAt(s[1..], i);
            assert PeerNumberAt(s, i + 1);
          }
        }
        assert [s[0]] + s[1..] == s;
      }
    }
  }

  /** The second rewrite deletes spaces and digits and nothing else. */
  lemma {:induction false} CollapsePeerNumbersDropsOnlySpacesAndDigits(s: string)
    ensures Sift(CollapsePeerNumbers(s), IsSpaceOrDigit) == Sift(s, IsSpaceOrDigit)
    decreases |s|
  {
    if |s| > 0 {
      if PeerNumberAt(s, 0) {
        var k := 5 + DigitRun(s[5..]);
        CollapsePeerNumbersDropsOnlySpacesAndDigits(s[k..]);
        SiftAppend("Peer", CollapsePeerNumbers(s[k..]), IsSpaceOrDigit);
        SiftPeerMatch(s, k);
      } else {
        CollapsePeerNumbersDropsOnlySpacesAndDigits(s[1..]);
        SiftAppend([s[0]], CollapsePeerNumbers(s[1..]), IsSpaceOrDigit);
        assert s == [s[0]] + s[1..];
        SiftAppend([s[0]], s[1..], IsSpaceOrDigit);
      }
    }
  }

  /** What a match of `Peer \d+` contributes once spaces and digits are
      removed: just "Peer". */
  lemma SiftPeerMatch(s: string, k: nat)
    requires PeerNumberAt(s, 0) && k == 5 + DigitRun(s[5..])
    ensures Sift(s, IsSpaceOrDigit) == "Peer" + Sift(s[k..], IsSpaceOrDigit)
  {
    var word, gap, rest := s[..4], s[4..k], s[k..];
    assert s == word + gap + rest;
    SiftAppend(word + gap, rest, IsSpaceOrDigit);
    SiftAppend(word, gap, IsSpaceOrDigit);
    assert word == "Peer" by {
      assert |word| == 4 && word[0] == 'P' && word[1] == 'e' && word[2] == 'e' && word[3] == 'r';
    }
    SiftOfKept(word, IsSpaceOrDigit);
    SeparatorIsDropped(s, k);
    SiftOfDropped(gap, IsSpaceOrDigit);
  }

  /** The space and digit run a match consumes after "Peer". */
  lemma SeparatorIsDropped(s: string, k: nat)
    requires PeerNumberAt(s, 0) && k == 5 + DigitRun(s[5..])
    ensures forall j | 0 <= j < |s[4..k]| :: IsSpaceOrDigit(s[4..k][j])
  {
  }

  lemma {:induction false} SiftOfKept(s: string, drop: char -> bool)
    requires forall j | 0 <= j < |s| :: !drop(s[j])
    ensures Sift(s, drop) == s
  {
    if |s| > 0 {
      SiftOfKept(s[1..], drop);
      assert [s[0]] + s[1..] == s;
    }
  }

  lemma {:induction false} SiftOfDropped(s: string, drop: char -> bool)
    requires forall j | 0 <= j < |s| :: drop(s[j])
    ensures Sift(s, drop) == []
  {
    if |s| > 0 {
      SiftOfDropped(s[1..], drop);
    }
  }

  /** Every ": " is rewritten, wherever it stands: a block split around one
      occurrence rewrites as its two sides with ":" between them. */
  lemma CollapseColonSpaceEach(a: string, b: string)
    ensures CollapseColonSpace(a + ": " + b) == CollapseColonSpace(a) + ":" + CollapseColonSpace(b)
  {
    var t := ": " + b;
    assert a + ": " + b == a + t;
    CollapseColonSpaceSplitAtColon(a, t);
    assert t[0] == ':' && t[1] == ' ' && t[2..] == b;
  }

  /** No match straddles a position where ":" starts: the text before it and
      the text from it rewrite independently. */
  lemma {:induction false} CollapseColonSpaceSplitAtColon(a: string, r: string)
    requires |r| > 0 && r[0] == ':'
    ensures CollapseColonSpace(a + r) == CollapseColonSpace(a) + CollapseColonSpace(r)
    decreases |a|
  {
    var s := a + r;
    if |a| == 0 {
      assert s == r;
    } else if |a| >= 2 && a[0] == ':' && a[1] == ' ' {
      assert s[0] == ':' && s[1] == ' ';
      assert s[2..] == a[2..] + r;
      CollapseColonSpaceSplitAtColon(a[2..], r);
    } else {
      assert s[0] == a[0] && s[1] == (if |a| == 1 then r[0] else a[1]);
      assert s[1..] == a[1..] + r;
      CollapseColonSpaceSplitAtColon(a[1..], r);
      if |a| == 1 {
        assert a[1..] == [] && [a[0]] == a;
      }
    }
  }

  /** A digit run stops where the digits do: text after it that does not
      start with a digit does not lengthen it. */
  lemma {:induction false} DigitRunStops(x: string, y: string)
    requires |y| == 0 || !IsDigit(y[0])
    ensures DigitRun(x + y) == DigitRun(x)
    decreases |x|
  {
    if |x| == 0 {
      assert x + y == y;
    } else {
      assert (x + y)[0] == x[0] && (x + y)[1..] == x[1..] + y;
      DigitRunStops(x[1..], y);
    }
  }

  /** No match straddles a position where "P" starts: the text before it and
      the text from it rewrite independently. */
  lemma {:induction false} CollapsePeerNumbersSplitAtP(a: string, r: string)
    requires |r| > 0 && r[0] == 'P'
    ensures CollapsePeerNumbers(a + r) == CollapsePeerNumbers(a) + CollapsePeerNumbers(r)
    decreases |a|
  {
    if |a| == 0 {
      assert a + r == r;
    } else {
      var k, head := PeerStepInPrefix(a, r);
      CollapsePeerNumbersSplitAtP(a[k..], r);
      Reassociate(head, CollapsePeerNumbers(a[k..]), CollapsePeerNumbers(r));
    }
  }

  /** One step of the second rewrite over a non-empty prefix `a` followed by
      text starting with "P": the step emits the same head and resumes at the
      same position k of `a`, whether or not the text follows. */
  lemma PeerStepInPrefix(a: string, r: string) returns (k: nat, head: string)
    requires |a| > 0 && |r| > 0 && r[0] == 'P'
    ensures 0 < k <= |a|
    ensures CollapsePeerNumbers(a + r) == head + CollapsePeerNumbers(a[k..] + r)
    ensures CollapsePeerNumbers(a) == head + CollapsePeerNumbers(a[k..])
  {
    var s := a + r;
    if PeerNumberAt(s, 0) {
      assert |a| > 5 by {
        assert s[|a|] == 'P';
        assert s[0] == 'P' && s[1] == 'e' && s[2] == 'e' && s[3] == 'r' && s[4] == ' ' && IsDigit(s[5]);
      }
      assert PeerNumberAt(a, 0) by {
        assert a[..6] == s[..6];
      }
      assert s[5..] == a[5..] + r;
      DigitRunStops(a[5..], r);
      k, head := 5 + DigitRun(a[5..]), "Peer";
      assert s[k..] == a[k..] + r;
    } else {
      assert !PeerNumberAt(a, 0) by {
        if PeerNumberAt(a, 0) {
          assert a[..6] == s[..6];
          assert PeerNumberAt(s, 0);
        }
      }
      k, head := 1, [a[0]];
      assert s[0] == a[0] && s[1..] == a[1..] + r;
    }
  }

  /** Every `Peer \d+` match is rewritten, wherever it stands, and it takes
      its whole digit run: a block split around one match rewrites as its
      two sides with "Peer" between them. */
  lemma CollapsePeerNumbersEach(a: string, d: string, b: string)
    requires |d| > 0 && forall j | 0 <= j < |d| :: IsDigit(d[j])
    requires |b| == 0 || !IsDigit(b[0])
    ensures CollapsePeerNumbers(a + "Peer " + d + b) == CollapsePeerNumbers(a) + "Peer" + CollapsePeerNumbers(b)
  {
    var r := "Peer " + d + b;
    Regroup(a, "Peer ", d, b);
    assert r[0] == 'P';
    CollapsePeerNumbersSplitAtP(a, r);
    PeerMatchConsumesRun(d, b);
    Reassociate(CollapsePeerNumbers(a), "Peer", CollapsePeerNumbers(b));
  }

  lemma Regroup(a: string, w: string, d: string, b: string)
    ensures a + w + d + b == a + (w + d + b)
  {
  }

  lemma Reassociate(x: string, y: string, z: string)
    ensures x + (y + z) == x + y + z
  {
  }

  /** A block that opens with a match loses "Peer ", then the whole digit
      run, and continues after it. */
  lemma PeerMatchConsumesRun(d: string, b: string)
    requires |d| > 0 && forall j | 0 <= j < |d| :: IsDigit(d[j])
    requires |b| == 0 || !IsDigit(b[0])
    ensures CollapsePeerNumbers("Peer " + d + b) == "Peer" + CollapsePeerNumbers(b)
  {
    var r := "Peer " + d + b;
    assert r[0] == 'P' && r[1] == 'e' && r[2] == 'e' && r[3] == 'r' && r[4] == ' ' && r[5] == d[0];
    assert r[5..] == d + b;
    DigitRunStops(d, b);
    assert r[5 + |d|..] == b;
  }

  /** Normalisation is the identity exactly on blocks that contain neither
      pattern, and strictly shortens every other block. */
  lemma NormaliseFixpoint(block: string)
    ensures Normalise(block) == block <==> !HasColonSpace(block) && !HasPeerNumber(block)
    ensures |Normalise(block)| <= |block|
    ensures Normalise(block) != block ==> |Normalise(block)| < |block|
  {
    CollapseColonSpaceFixpoint(block);
    var mid := CollapseColonSpace(block);
    CollapsePeerNumbersFixpoint(mid);
  }

  /** Normalisation only ever deletes spaces and digits: every other character
      of the fetched block reaches the hash, in order. */
  lemma NormaliseDropsOnlySpacesAndDigits(block: string)
    ensures Sift(Normalise(block), IsSpaceOrDigit) == Sift(block, IsSpaceOrDigit)
  {
    var mid := CollapseColonSpace(block);
    CollapsePeerNumbersDropsOnlySpacesAndDigits(mid);
    CollapseColonSpaceDropsOnlySpaces(block);
    SpaceSiftRefines(block, mid);
  }

  /** Strings that agree once spaces are removed also agree once spaces and
      digits are removed. */
  lemma {:induction false} SpaceSiftRefines(a: string, b: string)
    requires Sift(a, IsSpace) == Sift(b, IsSpace)
    ensures Sift(a, IsSpaceOrDigit) == Sift(b, IsSpaceOrDigit)
  {
    SiftTwice(a);
    SiftTwice(b);
  }

  lemma {:induction false} SiftTwice(s: string)
    ensures Sift(Sift(s, IsSpace), IsSpaceOrDigit) == Sift(s, IsSpaceOrDigit)
  {
    if |s| > 0 {
      SiftTwice(s[1..]);
      var head := if IsSpace(s[0]) then [] else [s[0]];
      SiftAppend(head, Sift(s[1..], IsSpace), IsSpaceOrDigit);
    }
  }

  /** Normalising twice is not normalising once: ":  " loses one space per
      pass, so the hash must be, and is, taken over a once-normalised block. */
  lemma NormaliseNotIdempotent()
    ensures Normalise(":  ") == ": "
    ensures Normalise(Normalise(":  ")) == ":"
  {
  }
}

=== FILE: wrappers.dfy ===
/** The failure-carrying shapes the model needs: Option for Python's `None`,
    Result for a value or the exception that replaced it. */
module Wrappers {

  datatype Option<+T> = None | Some(value: T)

  datatype Result<+R, +E> = Success(value: R) | Failure(error: E)

  /** Python's `dict.get`: the value stored under a key, or None. */
  function Lookup<K, V>(m: map<K, V>, k: K): Option<V>
  {
    if k in m then Some(m[k]) else None
  }
}
